=== FILE: README.md ===
# Book search: statistics, search handler and pagination

This project models the logic of a two-tier book search application in
Dafny and proves properties of that model.

The backend (`book-search-backend/server.js`) forwards a search query to an
upstream book-listing API. It replaces every returned book's description
with a fixed placeholder and attaches statistics: the record count, the most
common author, and the earliest and latest publication year. The frontend
(`book-search-frontend/src/App.js`) shows the books a page at a time. A
reader can expand and collapse each description separately, so several can
be open at once. Fallback texts stand in for missing fields.

Modules:

- `Wrappers`: `Option`. `None` stands for JavaScript `null`/`undefined`.
- `Records`: the `Book` record (title, author, year, description, all
  optional) and JavaScript truthiness. An empty string and the number 0
  count as absent.
- `Decimal`: digit strings, used for array-index-like keys and the
  `"<n>ms"` timing text.
- `Statistics`: `calculateStatistics`. It is a left fold over the records
  that keeps an insertion-ordered author tally and the earliest and latest
  date. A `reduce` with strict `>` then picks the most common author. The
  `Date` built from a year is modelled by `YearDate`. It is either the
  calendar year it lands in or an Invalid Date. Every comparison with an
  Invalid Date is false, and `toISOString` throws on one.
- `Search`: the `/api/search` handler. The upstream request is a function
  parameter from URL to outcome. The elapsed time is an integer parameter.
- `Pagination`: the page slice (`Array.prototype.slice` semantics) and the
  page count.
- `BookView`: the expand/collapse flags, description truncation and the
  display fallbacks.
- `AppState`: the component's state and the transitions its handlers
  make, as a small state machine.

The main results:

- `CalculateStatistics` characterises its whole output in terms of the
  records. It throws exactly when the first non-zero year gives an Invalid
  Date. Otherwise the most common author has the largest count. On a tie,
  it is the author whose first record comes earliest.
- Concatenating the pages reproduces the book list. Every position lies on
  exactly one page.
- Every state reachable through the app's events keeps the selected page in
  range. This uses the corrected handlers listed under Findings. It also
  needs a pagination widget that follows `currentPage` through
  `forcePage={currentPage}`, which `App.js` does not pass.

The model follows the code as written:

- The query is appended to the upstream URL verbatim. It is not
  URL-encoded.
- A null record in the upstream list makes the description overwrite throw,
  so the request answers 500. A null record is not passed on to the
  statistics.
- Years are not plain integers once they become dates. A one- or two-digit
  year names 2001-2049 or 1950-1999. A year outside the `Date` range that
  comes first makes the statistics throw, so the request answers 500.

## Model

| member | source | states |
|---|---|---|
| Statistics.CalculateStatistics | book-search-backend/server.js:12-43 | it throws exactly when the first record with a non-zero year gives an Invalid Date. Otherwise totalResults is the number of records, null ones included. mostCommonAuthor is absent exactly when no record has a non-empty author. Otherwise that author occurs at least as often as any other, and on a tie its first record comes before the other author's. The earliest and latest years are absent exactly when there is no non-zero year. Otherwise they are the minimum and maximum of the valid dates' calendar years and occur among them |
| Statistics.YearDate | book-search-backend/server.js:25 | a truthy year gives a valid date exactly when it lies between 1 and 275760. A valid date keeps the year's last two digits. Years below 100 land in 1950-2049; later years name themselves |
| Statistics.Visit | book-search-backend/server.js:17-28 | one record: a truthy author is tallied and a falsy one leaves the tally alone. A falsy year leaves both dates alone, and a truthy year sets both when absent. A valid earliest date never moves later and a valid latest date never moves earlier. An Invalid Date replaces neither once a date is held |
| Statistics.ReduceMax | book-search-backend/server.js:31-35 | the reduce answers with its seed or with one of the keys it visits |
| Statistics.Bump | book-search-backend/server.js:20-22 | incrementing an author raises its count by one and leaves every other count alone. Existing keys keep their order, and a new key is appended at the end with count 1 |
| Statistics.Accumulate | book-search-backend/server.js:13-29 | the tally built by the pass has distinct non-empty keys and positive counts |
| Statistics.TallyCountsOccurrences | book-search-backend/server.js:17-22 | each author's tally equals the number of records whose author is exactly that non-empty string. Empty or absent authors are never counted |
| Statistics.TallyFollowsFirstOccurrence | book-search-backend/server.js:17-22 | every key of the tally is an author some record has. Keys are ordered by the position of each author's first record |
| Statistics.MostCommonIsFirstArgMax | book-search-backend/server.js:31-35 | the reduce seeded with null gives null exactly for an empty tally. Otherwise it gives the first key, in insertion order, that holds the largest count |
| Statistics.MostCommonFacts | book-search-backend/server.js:17-35 | the reduce's answer, restated over the records: absent iff there are no authors, maximal count, and earliest first record among tied authors |
| Statistics.EarliestRange | book-search-backend/server.js:24-26 | the running earliest date is absent iff no record has a non-zero year. If the first such year gives an Invalid Date, that date is kept. Otherwise it is the smallest calendar year among the valid dates, and later invalid dates are skipped |
| Statistics.LatestRange | book-search-backend/server.js:24-27 | the running latest date is absent iff no record has a non-zero year. If the first such year gives an Invalid Date, that date is kept. Otherwise it is the largest calendar year among the valid dates, and later invalid dates are skipped |
| Statistics.TieBetweenTwo | book-search-backend/server.js:31-35 | when exactly two authors occur and they tie, the summary names as most common the one whose first record comes first |
| Statistics.TieGoesToFirstSeen | book-search-backend/server.js:31-35 | authors A, A, B, B give A as the most common author |
| Statistics.YearsExample | book-search-backend/server.js:24-28 | years 2020, 1999, 2021 give 1999 as the earliest and 2021 as the latest |
| Statistics.TwoDigitYearExample | book-search-backend/server.js:24-28 | years 49 and 2020 give 2020 as the earliest and 2049 as the latest, because 49 names 2049 |
| Statistics.OutOfRangeYearExample | book-search-backend/server.js:24-41 | a year of 300000 seen first makes the summary throw. Seen after 2020, it is skipped, and 2020 is both earliest and latest |
| Statistics.FirstIndex | book-search-backend/server.js:31-35 | the position of an author's first record: that record has the author and no earlier one does. This is the tie-break order |
| Search.UpstreamUrl | book-search-backend/server.js:50-51 | the URL always starts with the base URL. It equals the base URL exactly when the query is absent or empty |
| Search.UrlRoundTrip | book-search-backend/server.js:50-51 | reading the text after `?search=` back out of the URL gives exactly the truthy query, unencoded, and nothing for a falsy query |
| Search.WithPlaceholder | book-search-backend/server.js:54-58 | the map fails exactly when some record is null. Otherwise the list keeps its length and order, each description is the placeholder, and title, author and year are unchanged |
| Search.FormatElapsed | book-search-backend/server.js:61 | the timing text ends in `ms`. For a non-negative elapsed time the text before `ms` is digits that read back as that time, with no leading zero except in `0ms` |
| Search.Handle | book-search-backend/server.js:46-67 | the handler answers with data exactly when the upstream body is falsy, or a list without null records whose first non-zero year gives a valid date. Otherwise it answers status 500 with "Failed to fetch books". The data is the rewritten books in upstream order, statistics over them with totalResults equal to their number, and the timing text |
| Search.OutOfRangeYearFails | book-search-backend/server.js:60-65 | a listing whose only year is 300000 is answered with status 500 and "Failed to fetch books" |
| Decimal.NatToDecimal | book-search-backend/server.js:61 | writing a non-negative integer gives non-empty digits without a leading zero that read back as the integer |
| Pagination.JsSlice | book-search-frontend/src/App.js:49-52 | `slice` with non-negative bounds keeps the elements from `start` up to `end`, both clipped to the length. A negative start counts from the end |
| Pagination.PageSlice | book-search-frontend/src/App.js:49-52 | page p holds at most perPage books: the books from position p*perPage on, in order, clipped to the list's end |
| Pagination.PageCount | book-search-frontend/src/App.js:147 | the page count is the ceiling of length/perPage: the pages cover every book, and the last page is not empty |
| Pagination.PageOfPosition | book-search-frontend/src/App.js:49-52 | a position lies in page p's range exactly when p is the position divided by perPage |
| Pagination.PagesDisjoint | book-search-frontend/src/App.js:49-52 | two different pages share no position |
| Pagination.BookOnItsPage | book-search-frontend/src/App.js:49-52 | every book appears on an existing page, at the expected place on that page |
| Pagination.PastLastPageIsEmpty | book-search-frontend/src/App.js:49-52 | a page index at or beyond the page count shows an empty slice |
| Pagination.PageInRangeIsNonEmpty | book-search-frontend/src/App.js:147 | a page index below the page count shows at least one book |
| Pagination.PagesArePrefix | book-search-frontend/src/App.js:49-52 | the first n pages concatenated are the first n*perPage books, or all of them |
| Pagination.PagesReassemble | book-search-frontend/src/App.js:147 | concatenating pages 0 to pageCount-1 in order reproduces the book list exactly |
| BookView.Toggle | book-search-frontend/src/App.js:42-47 | toggling a position flips its flag, with an absent flag read as false. Every other entry is unchanged, and the position becomes a key |
| BookView.ToggleTwice | book-search-frontend/src/App.js:42-47 | toggling the same position twice restores the displayed state of every position |
| BookView.AuthorLabel | book-search-frontend/src/App.js:110 | a non-empty author is shown as is. An absent or empty one shows "Unknown Author", so the label is never empty |
| BookView.StatLabel | book-search-frontend/src/App.js:161-163 | a non-empty statistics field is shown as is. An absent or empty one shows "N/A" |
| BookView.Collapsed | book-search-frontend/src/App.js:112-114 | a non-empty description collapses to its first min(length, 100) characters followed by "...". An absent or empty one gives "No description available." |
| BookView.CollapsedIsShort | book-search-frontend/src/App.js:112-114 | a collapsed description has at most 103 characters |
| BookView.ShortDescriptionKept | book-search-frontend/src/App.js:112-114 | a description of at most 100 characters is shown whole and still gets "..." |
| BookView.ShownDescription | book-search-frontend/src/App.js:125-127 | an expanded book shows its full description, a collapsed one the truncated form. Both fall back to "No description available.", so the text is never empty |
| BookView.ToggleCaption | book-search-frontend/src/App.js:134 | the caption is "Show Less" exactly when the description is expanded, and "Read More" exactly when it is not |
| BookView.TogglingFlipsCaption | book-search-frontend/src/App.js:129-136 | pressing a book's button switches its caption between "Read More" and "Show Less" and leaves every other book's caption alone |
| BookView.MostCommonAuthorLine | book-search-frontend/src/App.js:161 | for a summary from the backend, the line shows "N/A" exactly when the batch has no author. Otherwise it shows the most common author |
| AppState.Initial | book-search-frontend/src/App.js:7-14 | the first state has an empty query, no books, empty statistics, no timing text, page 0, 5 per page, nothing expanded and no request running |
| AppState.BeginFetch | book-search-frontend/src/App.js:17 | starting a request sets the loading flag and nothing else |
| AppState.FinishFetch | book-search-frontend/src/App.js:22-31 | a successful response replaces books, statistics and time, selects page 0 and clears every expanded flag. A failure changes nothing but the loading flag. Loading always ends, and the query and page size are kept |
| AppState.FetchShowsFirstPage | book-search-frontend/src/App.js:22-26 | after a successful fetch, the visible books are the first page of the new list and none is expanded |
| AppState.VisibleBooks | book-search-frontend/src/App.js:49-52 | the visible books are at most one page: the books from position currentPage*resultsPerPage on, in order. When the page is in range and there are books, at least one is visible |
| AppState.EditQuery | book-search-frontend/src/App.js:66 | typing replaces the query and nothing else |
| AppState.ToggleDescription | book-search-frontend/src/App.js:131 | pressing the button at one position flips that position's flag only and changes no other state |
| AppState.ChangePage | book-search-frontend/src/App.js:38-40 | as written: the index the widget reports is stored as is, and nothing else changes, so every expanded flag is kept. The page is in range when the index is below the page count |
| AppState.SelectResultsPerPage | book-search-frontend/src/App.js:88-96 | as written: choosing a page size changes the page size and nothing else, so the selected page is kept |
| AppState.PerPageChangeCanEmptyTheView | book-search-frontend/src/App.js:88-96 | with 12 books at 5 per page on page index 2, switching to 20 per page leaves the selected page out of range, and the view is empty |
| AppState.ExpansionLeaksAcrossPages | book-search-frontend/src/App.js:38-47 | with ten books carrying the placeholder description, five per page, expanding the first book of page 0 and moving to page 1 shows that page's first book, never toggled, with its whole description rather than the collapsed 103 characters |
| AppState.SelectResultsPerPageFixed | book-search-frontend/src/App.js:88-96 | corrected: a new page size also selects page 0, so the selected page stays in range. Nothing else changes |
| AppState.ChangePageFixed | book-search-frontend/src/App.js:38-40 | corrected: a new page starts with every description collapsed. The index is stored as is and is in range when below the page count. Nothing else changes |
| AppState.StaleWidgetLeavesRange | book-search-frontend/src/App.js:144-152 | the widget keeps its own selection after a page-size change: 12 books at 5 per page on page index 2, then 20 per page, then "Previous" selects index 1. That page is past the last one and shows no book, as written and with both corrected handlers |
| AppState.NextKeepsPageInRange | book-search-frontend/src/App.js:16-47 | corrected: with the corrected page and page-size handlers, every enabled event keeps the selected page in range. Page events are enabled only for pages below the page count, as a widget given `forcePage={currentPage}` would offer |
| AppState.Run | book-search-frontend/src/App.js:16-47 | corrected: with the corrected handlers, every state reached from the initial one by enabled events has its page in range |
| AppState.ReachableViewNotEmpty | book-search-frontend/src/App.js:49-52 | corrected: with the corrected handlers, a non-empty book list in any reachable state means a non-empty visible page |

## Left out

- HTTP wiring is not modelled: the Express app, the CORS and JSON middleware, `app.listen`, and the axios calls. The upstream response is the `fetch` parameter of `Search.Handle`. The frontend request's result is a `FetchOutcome`.
- Clock: `Date.now()` is replaced by the elapsed-milliseconds parameter of `Search.Handle`.
- Search.FormatElapsed: integers from 10^21 up, which JavaScript writes in exponent form, are not modelled. An elapsed time never gets that large.
- Statistics.CalculateStatistics: reports calendar years, not the `YYYY-MM-DD` strings. `toISOString` writes the UTC date, which east of UTC is December 31st of the year before.
- Statistics.YearDate: follows V8's fallback parser for the non-ISO string `"01-01-" + year`. Other engines may read one- and two-digit years, negative years or six-digit years differently.
- Statistics.CalculateStatistics: requires every author to be an ordinary object key. These names are excluded: array-index-like names, which JavaScript enumerates first in numeric order; "null", which collides with the reduce's seed lookup; and the names `Object.prototype` already defines, such as "constructor" or "__proto__", whose tally starts from an inherited value. Search.Handle carries the same requirement for the upstream list.
- Records: fields are modelled as strings and integers. Other JSON types are not, such as a numeric author, a string year or a NaN year. Neither are truthy records that are not objects.
- Search.Handle: an array-valued `query` parameter (`?query=a&query=b`) is not modelled. The query is an optional string.
- BookView.Collapsed: counts Unicode characters. JavaScript's `slice` counts UTF-16 code units, so the two can differ for characters outside the Basic Multilingual Plane.
- The book title and the rest of the rendered markup are not modelled, nor are the spinner, the ReactPaginate widget, `useEffect` and concurrent requests, which can finish out of order.
- AppState.NextKeepsPageInRange: `Enabled` assumes the pagination widget offers only pages below the current page count. That needs a prop such as `forcePage={currentPage}`, which `App.js` does not pass. `AppState.StaleWidgetLeavesRange` shows the out-of-range page the widget really sends. AppState.Run and AppState.ReachableViewNotEmpty rest on the same assumption.
- FinishFetch: the `console.error` call on a failed request is not modelled. It only writes to the browser console.
- The frontend tests that expect "No books available" and "Error fetching books" are not modelled. `App.js` renders neither text. The backend test depends on the live upstream API.

## Findings

| source | as written | input that shows it | evidently intended | confidence | as-written member | corrected member |
|---|---|---|---|---|---|---|
| book-search-frontend/src/App.js:88-96 | changing the results per page keeps `currentPage` | 12 books, 5 per page, page index 2 selected, then 20 per page: the page index is past the only page and no book is listed | the selection returns to a page that exists, here the first, and the widget is told so through `forcePage={currentPage}` | medium, not executed | AppState.PerPageChangeCanEmptyTheView | AppState.SelectResultsPerPageFixed |
| book-search-frontend/src/App.js:38-47 | expanded flags are keyed by on-page position and survive a page change | 10 books with the placeholder description, 5 per page: "Read More" on the first book of page 0, then page 1: its first book shows its whole description | each book starts collapsed when its page is shown | medium, not executed | AppState.ExpansionLeaksAcrossPages | AppState.ChangePageFixed |

=== FILE: appstate.dfy ===
/**
  The state of the `App` component in book-search-frontend/src/App.js and
  the transitions its handlers make. Rendering, the loading spinner and the
  request itself are not modelled: a finished request arrives as a
  `FetchOutcome`.
 */
module AppState {
  import opened Wrappers
  import opened Records
  import opened Pagination
  import opened BookView
  import Search

  /** The `statistics` object as the frontend receives it; `{}` has every field absent. */
  datatype StatsPayload = StatsPayload(
    totalResults: Option<int>,
    mostCommonAuthor: Option<string>,
    earliestDate: Option<string>,
    latestDate: Option<string>)

  const NoStats: StatsPayload := StatsPayload(None, None, None, None)

  /** The component's `useState` variables. */
  datatype Ui = Ui(
    query: string,
    books: seq<Entry>,
    statistics: StatsPayload,
    serverResponseTime: string,
    resultsPerPage: nat,
    currentPage: nat,
    expanded: Expanded,
    loading: bool)

  /** How a request to the backend ended. */
  datatype FetchOutcome =
    | Received(books: seq<Entry>, statistics: StatsPayload, serverResponseTime: string)
    | FetchError

  /** The page sizes the results-per-page selector offers. */
  predicate AllowedPerPage(n: nat) {
    n == 5 || n == 10 || n == 20
  }

  /** The selected page exists, or there are no pages and the first one is selected. */
  predicate PageInRange(s: Ui) {
    && AllowedPerPage(s.resultsPerPage)
    && (s.currentPage == 0 || s.currentPage < PageCount(|s.books|, s.resultsPerPage))
  }

  /** `paginatedBooks`. */
  function VisibleBooks(s: Ui): (r: seq<Entry>)
    requires s.resultsPerPage > 0
    ensures |r| <= s.resultsPerPage
    ensures forall k :: 0 <= k < |r| ==>
              s.currentPage * s.resultsPerPage + k < |s.books| && r[k] == s.books[s.currentPage * s.resultsPerPage + k]
    ensures PageInRange(s) && |s.books| > 0 ==> |r| > 0
  {
    var page := PageSlice(s.books, s.currentPage, s.resultsPerPage);
    if s.currentPage == 0 || !PageInRange(s) then page
    else
      PageInRangeIsNonEmpty(s.books, s.currentPage, s.resultsPerPage);
      page
  }

  /** No position of the visible page is expanded. */
  predicate AllCollapsed(s: Ui) {
    forall i :: i in s.expanded ==> !s.expanded[i]
  }

  // ---------------------------------------------------------------------
  // Transitions

  /** The state before the first render. */
  function Initial(): (s: Ui)
    ensures PageInRange(s) && AllCollapsed(s) && |s.books| == 0 && !s.loading
    ensures s.query == "" && s.statistics == NoStats && s.serverResponseTime == ""
    ensures s.resultsPerPage == 5 && s.currentPage == 0
  {
    Ui("", [], NoStats, "", 5, 0, map[], false)
  }

  /** `fetchBooks` starts: `setLoading(true)`. */
  function BeginFetch(s: Ui): (r: Ui)
    ensures r.loading
    ensures r.(loading := s.loading) == s
  {
    s.(loading := true)
  }

  /**
    `fetchBooks` ends: on success the response replaces books, statistics
    and time, the first page is selected and every flag is cleared; on
    failure only the loading flag changes. Either way loading ends.
   */
  function FinishFetch(s: Ui, outcome: FetchOutcome): (r: Ui)
    ensures !r.loading
    ensures r.query == s.query && r.resultsPerPage == s.resultsPerPage
    ensures outcome.Received? ==>
              && r.books == outcome.books
              && r.statistics == outcome.statistics
              && r.serverResponseTime == outcome.serverResponseTime
              && r.currentPage == 0
              && AllCollapsed(r)
    ensures outcome.FetchError? ==> r == s.(loading := false)
  {
    match outcome
    case Received(books, statistics, time) =>
      s.(books := books, statistics := statistics, serverResponseTime := time,
         currentPage := 0, expanded := map[], loading := false)
    case FetchError => s.(loading := false)
  }

  /** After a successful fetch the first page of the new books shows, all collapsed. */
  lemma {:induction false} FetchShowsFirstPage(s: Ui, outcome: FetchOutcome)
    requires PageInRange(s) && outcome.Received?
    ensures PageInRange(FinishFetch(s, outcome))
    ensures VisibleBooks(FinishFetch(s, outcome))
              == outcome.books[..Min(s.resultsPerPage, |outcome.books|)]
    ensures AllCollapsed(FinishFetch(s, outcome))
  {
    var r := FinishFetch(s, outcome);
    var page := VisibleBooks(r);
    assert |page| == Min(s.resultsPerPage, |outcome.books|);
  }

  /** The query box: `setQuery(e.target.value)`. */
  function EditQuery(s: Ui, text: string): (r: Ui)
    ensures r.query == text && r.(query := s.query) == s
  {
    s.(query := text)
  }

  /** A book's "Read More" / "Show Less" button at on-page position `index`. */
  function ToggleDescription(s: Ui, index: nat): (r: Ui)
    ensures IsExpanded(r.expanded, index) <==> !IsExpanded(s.expanded, index)
    ensures forall j: nat :: j != index ==> IsExpanded(r.expanded, j) == IsExpanded(s.expanded, j)
    ensures r.(expanded := s.expanded) == s
  {
    s.(expanded := Toggle(s.expanded, index))
  }

  /**
    `handlePageChange` as written: the index the pagination widget reports
    is stored as is, and nothing else changes.
   */
  function ChangePage(s: Ui, selected: nat): (r: Ui)
    ensures r.currentPage == selected
    ensures AllowedPerPage(s.resultsPerPage) && selected < PageCount(|s.books|, s.resultsPerPage) ==> PageInRange(r)
    ensures r.(currentPage := s.currentPage) == s
  {
    s.(currentPage := selected)
  }

  /** The results-per-page selector as written: only the page size changes. */
  function SelectResultsPerPage(s: Ui, n: nat): (r: Ui)
    requires AllowedPerPage(n)
    ensures r.resultsPerPage == n
    ensures r.(resultsPerPage := s.resultsPerPage) == s
  {
    s.(resultsPerPage := n)
  }

  /**
    Changing the page size leaves the selected page alone, so it can point
    past the last page: 12 books at 5 per page on page 2, switched to 20 per
    page, show no book at all.
   */
  lemma PerPageChangeCanEmptyTheView()
    ensures var s := Ui("", seq(12, _ => None), NoStats, "", 5, 2, map[], false);
            && PageInRange(s)
            && |VisibleBooks(s)| == 2
            && !PageInRange(SelectResultsPerPage(s, 20))
            && VisibleBooks(SelectResultsPerPage(s, 20)) == []
  {
    var s := Ui("", seq(12, _ => None), NoStats, "", 5, 2, map[], false);
    assert PageCount(12, 20) == 1;
    PastLastPageIsEmpty(s.books, 2, 20);
  }

  /** A returned book as the backend sends it: only the placeholder description. */
  const Described: Entry := Some(Book(None, None, None, Some(Search.Placeholder)))

  /**
    The expanded flags are keyed by on-page position and survive a page
    change: with ten described books, five per page, pressing "Read More"
    on the first book of page 0 and then moving to page 1 shows that
    page's first book, never toggled, with its whole description instead
    of the collapsed one.
   */
  lemma ExpansionLeaksAcrossPages()
    ensures var s := Ui("", seq(10, _ => Described), NoStats, "", 5, 0, map[], false);
            var t := ChangePage(ToggleDescription(s, 0), 1);
            var d := VisibleBooks(t)[0].value.description;
            && t.currentPage == 1 && IsExpanded(t.expanded, 0)
            && ShownDescription(d, IsExpanded(t.expanded, 0)) == Search.Placeholder
            && ShownDescription(d, IsExpanded(t.expanded, 0)) != Collapsed(d)
  {
    var s := Ui("", seq(10, _ => Described), NoStats, "", 5, 0, map[], false);
    var t := ChangePage(ToggleDescription(s, 0), 1);
    assert |VisibleBooks(t)| == 5 && VisibleBooks(t)[0] == Described;
    var d := VisibleBooks(t)[0].value.description;
    assert |Collapsed(d)| == 103;
  }

  /** The results-per-page selector, corrected: it also returns to the first page. */
  function SelectResultsPerPageFixed(s: Ui, n: nat): (r: Ui)
    requires AllowedPerPage(n)
    ensures PageInRange(r)
    ensures r.resultsPerPage == n && r.currentPage == 0
    ensures r.(resultsPerPage := s.resultsPerPage, currentPage := s.currentPage) == s
  {
    s.(resultsPerPage := n, currentPage := 0)
  }

  /** `handlePageChange`, corrected: a new page starts with every description collapsed. */
  function ChangePageFixed(s: Ui, selected: nat): (r: Ui)
    ensures r.currentPage == selected
    ensures AllowedPerPage(s.resultsPerPage) && selected < PageCount(|s.books|, s.resultsPerPage) ==> PageInRange(r)
    ensures AllCollapsed(r)
    ensures r.(currentPage := s.currentPage, expanded := s.expanded) == s
  {
    s.(currentPage := selected, expanded := map[])
  }

  /**
    The pagination widget is not given `forcePage`, so a page-size change
    leaves its own selection behind. With 12 books at 5 per page on page
    index 2, switching to 20 per page and pressing "Previous" (index 1)
    selects a page past the last one and shows no book, as written and
    even with both corrected handlers.
   */
  lemma StaleWidgetLeavesRange()
    ensures var s := Ui("", seq(12, _ => None), NoStats, "", 5, 2, map[], false);
            var t := ChangePage(SelectResultsPerPage(s, 20), 1);
            var u := ChangePageFixed(SelectResultsPerPageFixed(s, 20), 1);
            && PageInRange(s)
            && !PageInRange(t) && VisibleBooks(t) == []
            && !PageInRange(u) && VisibleBooks(u) == []
  {
    var s := Ui("", seq(12, _ => None), NoStats, "", 5, 2, map[], false);
    assert PageCount(12, 5) == 3 && PageCount(12, 20) == 1;
    PastLastPageIsEmpty(s.books, 1, 20);
  }

  // ---------------------------------------------------------------------
  // The component as a state machine

  datatype Event =
    | Typed(text: string)
    | Submitted
    | Fetched(outcome: FetchOutcome)
    | PageSelected(page: nat)
    | PerPageSelected(n: nat)
    | DescriptionToggled(index: nat)

  /**
    Events the widgets can produce in state `s`, for a pagination widget
    controlled by `forcePage={currentPage}`: it then offers only the pages
    below the current page count. Without that prop the widget keeps its
    own selection (see `StaleWidgetLeavesRange`).
   */
  predicate Enabled(s: Ui, e: Event) {
    match e
    case PageSelected(p) => AllowedPerPage(s.resultsPerPage) && p < PageCount(|s.books|, s.resultsPerPage)
    case PerPageSelected(n) => AllowedPerPage(n)
    case _ => true
  }

  /** One event, with the corrected page and page-size handlers. */
  function Next(s: Ui, e: Event): Ui
    requires Enabled(s, e)
  {
    match e
    case Typed(text) => EditQuery(s, text)
    case Submitted => BeginFetch(s)
    case Fetched(outcome) => FinishFetch(s, outcome)
    case PageSelected(p) => ChangePageFixed(s, p)
    case PerPageSelected(n) => SelectResultsPerPageFixed(s, n)
    case DescriptionToggled(i) => ToggleDescription(s, i)
  }

  /** Every enabled event keeps the selected page in range. */
  lemma NextKeepsPageInRange(s: Ui, e: Event)
    requires PageInRange(s) && Enabled(s, e)
    ensures PageInRange(Next(s, e))
  {
  }

  /** The state reached from the initial one by a run of enabled events. */
  function Run(events: seq<Event>): (s: Ui)
    ensures PageInRange(s)
  {
    if |events| == 0 then Initial()
    else
      var s := Run(events[..|events| - 1]);
      var e := events[|events| - 1];
      if Enabled(s, e) then
        NextKeepsPageInRange(s, e);
        Next(s, e)
      else s
  }

  /** In any reachable state, books on hand means a non-empty visible page. */
  lemma {:induction false} ReachableViewNotEmpty(events: seq<Event>)
    requires |Run(events).books| > 0
    ensures |VisibleBooks(Run(events))| > 0
  {
    var s := Run(events);
    if s.currentPage != 0 {
      PageInRangeIsNonEmpty(s.books, s.currentPage, s.resultsPerPage);
    } else {
      assert |VisibleBooks(s)| == Min(s.resultsPerPage, |s.books|);
    }
  }
}

=== FILE: bookview.dfy ===
/**
  What each listed book and the statistics panel display in
  book-search-frontend/src/App.js, and the expand/collapse flags behind the
  "Read More" / "Show Less" button. The flags are an object from on-page
  position to boolean; an absent position reads as collapsed.
 */
module BookView {
  import opened Wrappers
  import opened Records
  import Pagination
  import Statistics

  const UnknownAuthor: string := "Unknown Author"
  const NoDescription: string := "No description available."
  const NotAvailable: string := "N/A"
  const Ellipsis: string := "..."
  const CollapsedLength: nat := 100

  /** `expandedDescriptions`. */
  type Expanded = map<nat, bool>

  /** `expandedDescriptions[index]` read as a boolean. */
  predicate IsExpanded(m: Expanded, index: nat) {
    index in m && m[index]
  }

  /** `handleToggleDescription(index)`: `{ ...prev, [index]: !prev[index] }`. */
  function Toggle(m: Expanded, index: nat): (r: Expanded)
    ensures IsExpanded(r, index) <==> !IsExpanded(m, index)
    ensures r.Keys == m.Keys + {index}
    ensures forall j :: j in m && j != index ==> r[j] == m[j]
  {
    m[index := !IsExpanded(m, index)]
  }

  /** Toggling one position twice restores what every position displays. */
  lemma ToggleTwice(m: Expanded, index: nat, j: nat)
    ensures IsExpanded(Toggle(Toggle(m, index), index), j) == IsExpanded(m, j)
  {
  }

  /** The author line: a truthy author as is, otherwise "Unknown Author". */
  function AuthorLabel(author: Option<string>): (r: string)
    ensures r != ""
    ensures IsTruthyText(author) ==> r == author.value
    ensures !IsTruthyText(author) ==> r == UnknownAuthor
  {
    if IsTruthyText(author) then author.value else UnknownAuthor
  }

  /** A statistics field: `value || "N/A"`. */
  function StatLabel(value: Option<string>): (r: string)
    ensures r != ""
    ensures IsTruthyText(value) ==> r == value.value
    ensures !IsTruthyText(value) ==> r == NotAvailable
  {
    if IsTruthyText(value) then value.value else NotAvailable
  }

  /** The collapsed description: the first 100 characters and "...", or the fallback text. */
  function Collapsed(description: Option<string>): (r: string)
    ensures IsTruthyText(description) ==>
              var d := description.value;
              && |r| == Pagination.Min(|d|, CollapsedLength) + |Ellipsis|
              && r[..|r| - |Ellipsis|] == d[..|r| - |Ellipsis|]
              && r[|r| - |Ellipsis|..] == Ellipsis
    ensures !IsTruthyText(description) ==> r == NoDescription
  {
    if IsTruthyText(description) then
      var d := description.value;
      d[..Pagination.Min(|d|, CollapsedLength)] + Ellipsis
    else NoDescription
  }

  /** A collapsed description never exceeds 103 characters. */
  lemma CollapsedIsShort(description: Option<string>)
    ensures |Collapsed(description)| <= CollapsedLength + |Ellipsis|
  {
  }

  /** A description of at most 100 characters is shown whole, still followed by "...". */
  lemma ShortDescriptionKept(description: Option<string>)
    requires IsTruthyText(description) && |description.value| <= CollapsedLength
    ensures Collapsed(description) == description.value + Ellipsis
  {
  }

  /** The paragraph under a book: the whole description when expanded, else the collapsed one. */
  function ShownDescription(description: Option<string>, expanded: bool): (r: string)
    ensures r != ""
    ensures expanded && IsTruthyText(description) ==> r == description.value
    ensures !IsTruthyText(description) ==> r == NoDescription
    ensures !expanded ==> r == Collapsed(description)
  {
    if expanded then (if IsTruthyText(description) then description.value else NoDescription)
    else Collapsed(description)
  }

  /** The button's caption for the current flag. */
  function ToggleCaption(expanded: bool): (r: string)
    ensures r == "Show Less" <==> expanded
    ensures r == "Read More" <==> !expanded
  {
    assert "Show Less"[0] != "Read More"[0];
    if expanded then "Show Less" else "Read More"
  }

  /** Pressing a book's button flips only that book's caption. */
  lemma {:induction false} TogglingFlipsCaption(m: Expanded, index: nat, other: nat)
    requires other != index
    ensures ToggleCaption(IsExpanded(Toggle(m, index), index)) != ToggleCaption(IsExpanded(m, index))
    ensures ToggleCaption(IsExpanded(Toggle(m, index), other)) == ToggleCaption(IsExpanded(m, other))
  {
  }

  /**
    For a summary from the backend, the "Most Common Author" line shows
    "N/A" for a batch without authors, else the most common author.
   */
  lemma MostCommonAuthorLine(books: seq<Entry>)
    requires Statistics.OrdinaryAuthorKeys(books)
    ensures var r := Statistics.CalculateStatistics(books);
            r.Summary? && Statistics.NoAuthors(books) ==>
              StatLabel(r.stats.mostCommonAuthor) == NotAvailable
    ensures var r := Statistics.CalculateStatistics(books);
            r.Summary? && !Statistics.NoAuthors(books) ==>
              var most := r.stats.mostCommonAuthor;
              most.Some? && StatLabel(most) == most.value && Statistics.Occurrences(books, most.value) > 0
  {
    var r := Statistics.CalculateStatistics(books);
    if r.Summary? && r.stats.mostCommonAuthor.Some? {
      var k := Statistics.FirstIndex(books, r.stats.mostCommonAuthor.value);
      assert TruthyAuthor(books[k]) == r.stats.mostCommonAuthor;
    }
  }
}

=== FILE: decimal.dfy ===
/**
  Decimal digit strings: how JavaScript writes a non-negative integer, and
  how a digit string reads back as a number. Used for array-index-like
  object keys and for the `"<n>ms"` response-time text.
 */
module Decimal {

  predicate IsDigit(c: char) {
    '0' <= c <= '9'
  }

  predicate AllDigits(s: string) {
    forall i :: 0 <= i < |s| ==> IsDigit(s[i])
  }

  /** The number a digit string denotes (leading zeros allowed). */
  function DigitsValue(s: string): nat
    requires AllDigits(s)
  {
    if |s| == 0 then 0
    else
      assert IsDigit(s[|s| - 1]);
      10 * DigitsValue(s[..|s| - 1]) + (s[|s| - 1] as int - '0' as int)
  }

  function DigitChar(d: nat): (c: char)
    requires d < 10
    ensures IsDigit(c) && c as int - '0' as int == d
  {
    ('0' as int + d) as char
  }

  /** `String(n)` for a non-negative integer: its shortest decimal digits. */
  function NatToDecimal(n: nat): (s: string)
    ensures |s| > 0 && AllDigits(s)
    ensures s[0] == '0' ==> s == "0"
    ensures DigitsValue(s) == n
  {
    if n < 10 then [DigitChar(n)]
    else
      var prefix := NatToDecimal(n / 10);
      var s := prefix + [DigitChar(n % 10)];
      assert s[..|s| - 1] == prefix;
      s
  }

  /** `String(n)` for an integer: a minus sign before the digits of `|n|`. */
  function IntToDecimal(n: int): (s: string)
    ensures n >= 0 ==> s == NatToDecimal(n)
    ensures n < 0 ==> |s| > 1 && s[0] == '-' && s[1..] == NatToDecimal(-n)
  {
    if n < 0 then "-" + NatToDecimal(-n) else NatToDecimal(n)
  }
}

=== FILE: pagination.dfy ===
/**
  Client-side pagination in book-search-frontend/src/App.js: the visible
  page is `books.slice(currentPage * resultsPerPage, (currentPage + 1) *
  resultsPerPage)` and the widget is given `Math.ceil(books.length /
  resultsPerPage)` pages.
 */
module Pagination {

  function Min(a: int, b: int): int { if a <= b then a else b }
  function Max(a: int, b: int): int { if a <= b then b else a }

  /** How `Array.prototype.slice` turns an argument into a position in `[0, len]`. */
  function SlicePosition(i: int, len: nat): (p: nat)
    ensures p <= len
    ensures 0 <= i ==> p == Min(i, len)
  {
    if i < 0 then Max(len + i, 0) else Min(i, len)
  }

  /** `s.slice(start, end)`. */
  function JsSlice<T>(s: seq<T>, start: int, end: int): (r: seq<T>)
    ensures |r| <= |s|
    ensures 0 <= start <= end ==> |r| == Min(end, |s|) - Min(start, |s|)
    ensures 0 <= start ==> forall k :: 0 <= k < |r| ==> start + k < |s| && r[k] == s[start + k]
    ensures start < 0 && -start <= |s| && end >= |s| ==> r == s[|s| + start..]
  {
    var from := SlicePosition(start, |s|);
    var to := SlicePosition(end, |s|);
    if from < to then s[from..to] else []
  }

  /** The books shown on page `page` (numbered from 0) at `perPage` books per page. */
  function PageSlice<T>(books: seq<T>, page: nat, perPage: nat): (r: seq<T>)
    requires perPage > 0
    ensures |r| <= perPage
    ensures |r| == Max(0, Min(perPage, |books| - page * perPage))
    ensures forall k :: 0 <= k < |r| ==> r[k] == books[page * perPage + k]
  {
    MulMonotone(page, page + 1, perPage);
    JsSlice(books, page * perPage, (page + 1) * perPage)
  }

  /** `Math.ceil(length / perPage)`. */
  function PageCount(length: nat, perPage: nat): (n: nat)
    requires perPage > 0
    ensures length <= n * perPage
    ensures n > 0 ==> (n - 1) * perPage < length
  {
    var n := (length + perPage - 1) / perPage;
    assert n * perPage <= length + perPage - 1 < (n + 1) * perPage;
    n
  }

  lemma MulMonotone(a: nat, b: nat, c: nat)
    requires a <= b
    ensures a * c <= b * c
  {
  }

  /** Page `page` covers the positions `page * perPage .. (page + 1) * perPage - 1`. */
  predicate OnPage(k: nat, page: nat, perPage: nat) {
    page * perPage <= k < (page + 1) * perPage
  }

  /** Every position lies on exactly one page: the one numbered `k / perPage`. */
  lemma {:induction false} PageOfPosition(k: nat, page: nat, perPage: nat)
    requires perPage > 0
    ensures OnPage(k, page, perPage) <==> page == k / perPage
  {
    var q := k / perPage;
    assert q * perPage <= k < (q + 1) * perPage;
    if page < q {
      MulMonotone(page + 1, q, perPage);
    } else if q < page {
      MulMonotone(q + 1, page, perPage);
    }
  }

  /** Two different pages share no position. */
  lemma PagesDisjoint(p: nat, q: nat, perPage: nat, k: nat)
    requires perPage > 0 && p != q
    ensures !(OnPage(k, p, perPage) && OnPage(k, q, perPage))
  {
    PageOfPosition(k, p, perPage);
    PageOfPosition(k, q, perPage);
  }

  /** Each book appears on page `k / perPage`, at place `k % perPage`, and that page exists. */
  lemma {:induction false} BookOnItsPage<T>(books: seq<T>, k: nat, perPage: nat)
    requires perPage > 0 && k < |books|
    ensures k / perPage < PageCount(|books|, perPage)
    ensures k % perPage < |PageSlice(books, k / perPage, perPage)|
    ensures PageSlice(books, k / perPage, perPage)[k % perPage] == books[k]
  {
    var q := k / perPage;
    var n := PageCount(|books|, perPage);
    assert q * perPage + k % perPage == k;
    if n <= q {
      MulMonotone(n, q, perPage);
    }
  }

  /** A page at or beyond the page count shows nothing. */
  lemma {:induction false} PastLastPageIsEmpty<T>(books: seq<T>, page: nat, perPage: nat)
    requires perPage > 0 && page >= PageCount(|books|, perPage)
    ensures PageSlice(books, page, perPage) == []
  {
    MulMonotone(PageCount(|books|, perPage), page, perPage);
  }

  /** A page below the page count shows at least one book. */
  lemma {:induction false} PageInRangeIsNonEmpty<T>(books: seq<T>, page: nat, perPage: nat)
    requires perPage > 0 && page < PageCount(|books|, perPage)
    ensures |PageSlice(books, page, perPage)| > 0
  {
    MulMonotone(page, PageCount(|books|, perPage) - 1, perPage);
  }

  /** Pages `0 .. n - 1`, concatenated in order. */
  function Pages<T>(books: seq<T>, perPage: nat, n: nat): seq<T>
    requires perPage > 0
  {
    if n == 0 then [] else Pages(books, perPage, n - 1) + PageSlice(books, n - 1, perPage)
  }

  /** The first `n` pages hold exactly the first `n * perPage` books (or all of them). */
  lemma {:induction false} PagesArePrefix<T>(books: seq<T>, perPage: nat, n: nat)
    requires perPage > 0
    ensures Pages(books, perPage, n) == books[..Min(n * perPage, |books|)]
  {
    if n > 0 {
      PagesArePrefix(books, perPage, n - 1);
      var lo := Min((n - 1) * perPage, |books|);
      var hi := Min(n * perPage, |books|);
      MulMonotone(n - 1, n, perPage);
      var page := PageSlice(books, n - 1, perPage);
      assert |page| == hi - lo;
      assert page == books[lo..hi];
      assert books[..lo] + books[lo..hi] == books[..hi];
    }
  }

  /** Concatenating all pages in order gives back the whole list. */
  lemma PagesReassemble<T>(books: seq<T>, perPage: nat)
    requires perPage > 0
    ensures Pages(books, perPage, PageCount(|books|, perPage)) == books
  {
    PagesArePrefix(books, perPage, PageCount(|books|, perPage));
    assert books[..|books|] == books;
  }
}

=== FILE: records.dfy ===
/**
  The book records exchanged between the upstream listing API, the search
  backend and the frontend, and the JavaScript truthiness tests the code
  applies to their fields.
 */
module Records {
  import opened Wrappers

  /** One upstream book object. Every field may be missing. */
  datatype Book = Book(
    title: Option<string>,
    author: Option<string>,
    yearPublished: Option<int>,
    description: Option<string>)

  /** One element of a result list: `None` is a null or undefined record. */
  type Entry = Option<Book>

  /** A string-valued field is truthy when present and not the empty string. */
  predicate IsTruthyText(s: Option<string>) {
    s.Some? && s.value != ""
  }

  /** A numeric field is truthy when present and not zero. */
  predicate IsTruthyNumber(n: Option<int>) {
    n.Some? && n.value != 0
  }

  /** The value of a string field when it is truthy; `None` otherwise. */
  function TruthyText(s: Option<string>): (r: Option<string>)
    ensures r.Some? <==> IsTruthyText(s)
    ensures r.Some? ==> r == s && r.value != ""
  {
    if IsTruthyText(s) then s else None
  }

  /** The author the statistics see: `const { author } = book || {}` gated by `if (author)`. */
  function TruthyAuthor(e: Entry): (r: Option<string>)
    ensures r.Some? <==> e.Some? && IsTruthyText(e.value.author)
    ensures r.Some? ==> r == e.value.author && r.value != ""
  {
    if e.Some? then TruthyText(e.value.author) else None
  }

  /** The year the statistics see: `yearPublished` gated by `if (yearPublished)`. */
  function TruthyYear(e: Entry): (r: Option<int>)
    ensures r.Some? <==> e.Some? && IsTruthyNumber(e.value.yearPublished)
    ensures r.Some? ==> r == e.value.yearPublished && r.value != 0
  {
    if e.Some? && IsTruthyNumber(e.value.yearPublished) then e.value.yearPublished else None
  }
}

=== FILE: search.dfy ===
/**
  The `GET /api/search` handler of book-search-backend/server.js with its
  I/O made explicit: the upstream listing API is a function from URL to
  what the request produced, and the elapsed wall-clock time is a parameter.
 */
module Search {
  import opened Wrappers
  import opened Records
  import opened Decimal
  import opened Statistics

  const BaseUrl: string := "https://postman-library-api.glitch.me/books"
  const SearchPrefix: string := "?search="

  /** The fixed text every returned book carries as its description. */
  const Placeholder: string :=
    "\"The Whispering Pines Mystery\" is a gripping tale of suspense, secrets, and the enduring power of the past. It explores the depths of human nature, the fragility of trust, and the resilience of the human spirit in the face of adversity."

  const FailureMessage: string := "Failed to fetch books"

  /** What the upstream request produced. */
  datatype Upstream =
    | Unreachable                       // axios rejected: network error, non-2xx status, ...
    | NoData                            // a falsy response body, read as `[]`
    | NotAList                          // a truthy body without `map`: the handler throws
    | Listing(entries: seq<Entry>)      // a JSON array of records

  datatype Response =
    | Ok(books: seq<Book>, statistics: Stats, serverResponseTime: string)
    | Failed(status: nat, error: string)

  // ---------------------------------------------------------------------
  // The upstream URL

  /** `apiURL`: the base URL, plus `?search=` and the query verbatim when the query is truthy. */
  function UpstreamUrl(query: Option<string>): (url: string)
    ensures |BaseUrl| <= |url| && url[..|BaseUrl|] == BaseUrl
    ensures url == BaseUrl <==> !IsTruthyText(query)
  {
    if IsTruthyText(query) then BaseUrl + SearchPrefix + query.value else BaseUrl
  }

  /** The search term a URL carries, read back character for character (no decoding). */
  function SearchTerm(url: string): (r: Option<string>)
    ensures r.Some? ==> url == BaseUrl + SearchPrefix + r.value
  {
    var prefix := BaseUrl + SearchPrefix;
    if |prefix| < |url| && url[..|prefix|] == prefix then Some(url[|prefix|..]) else None
  }

  /** The URL carries exactly the truthy query, unencoded; a falsy query adds nothing. */
  lemma UrlRoundTrip(query: Option<string>)
    ensures SearchTerm(UpstreamUrl(query)) == TruthyText(query)
  {
    var prefix := BaseUrl + SearchPrefix;
    var url := UpstreamUrl(query);
    if IsTruthyText(query) {
      assert url == prefix + query.value;
      assert url[..|prefix|] == prefix;
      assert url[|prefix|..] == query.value;
    }
  }

  // ---------------------------------------------------------------------
  // The description overwrite

  /**
    `books.map(data => { data.description = Placeholder; return data; })`:
    every record keeps its place and its other fields and gets the
    placeholder description; a null record makes the assignment throw.
   */
  function WithPlaceholder(entries: seq<Entry>): (r: Option<seq<Book>>)
    ensures r.None? <==> exists i :: 0 <= i < |entries| && entries[i].None?
    ensures r.Some? ==> |r.value| == |entries|
    ensures r.Some? ==> forall i :: 0 <= i < |entries| ==>
              && entries[i].Some?
              && r.value[i].description == Some(Placeholder)
              && r.value[i].title == entries[i].value.title
              && r.value[i].author == entries[i].value.author
              && r.value[i].yearPublished == entries[i].value.yearPublished
  {
    if |entries| == 0 then Some([])
    else
      match entries[0]
      case None => None
      case Some(b) =>
        match WithPlaceholder(entries[1..])
        case None =>
          assert exists i :: 0 <= i < |entries| && entries[i].None? by {
            var j :| 0 <= j < |entries[1..]| && entries[1..][j].None?;
            assert entries[j + 1] == entries[1..][j];
          }
          None
        case Some(rest) =>
          var r := [b.(description := Some(Placeholder))] + rest;
          assert forall i :: 1 <= i < |entries| ==> entries[i] == entries[1..][i - 1];
          Some(r)
  }

  /** The books as the list `calculateStatistics` receives. */
  function AsEntries(books: seq<Book>): (r: seq<Entry>)
    ensures |r| == |books| && forall i :: 0 <= i < |books| ==> r[i] == Some(books[i])
  {
    seq(|books|, i requires 0 <= i < |books| => Some(books[i]))
  }

  // ---------------------------------------------------------------------
  // The handler

  /** `${elapsed}ms`. */
  function FormatElapsed(elapsedMs: int): (s: string)
    ensures |s| >= 3 && s[|s| - 2..] == "ms"
    ensures elapsedMs >= 0 ==> AllDigits(s[..|s| - 2]) && DigitsValue(s[..|s| - 2]) == elapsedMs
    ensures elapsedMs >= 0 && s[0] == '0' ==> s == "0ms"
    ensures elapsedMs < 0 ==> s[0] == '-'
  {
    var digits := IntToDecimal(elapsedMs);
    var s := digits + "ms";
    assert s[..|s| - 2] == digits;
    s
  }

  /** A listing whose author names are all ordinary object keys. */
  predicate OrdinaryUpstream(u: Upstream) {
    u.Listing? ==> OrdinaryAuthorKeys(u.entries)
  }

  /**
    The handler answers with data exactly when the body is falsy, or an
    array without null records whose first truthy year gives a valid date.
   */
  predicate Serviceable(u: Upstream) {
    || u.NoData?
    || (&& u.Listing?
        && (forall i :: 0 <= i < |u.entries| ==> u.entries[i].Some?)
        && !FirstDateInvalid(u.entries))
  }

  /** Lists that agree on every record's truthy year have the same truthy years. */
  lemma {:induction false} SameTruthyYears(a: seq<Entry>, b: seq<Entry>)
    requires |a| == |b|
    requires forall i :: 0 <= i < |a| ==> TruthyYear(a[i]) == TruthyYear(b[i])
    ensures TruthyYears(a) == TruthyYears(b)
  {
    if |a| > 0 {
      var pa, pb := a[..|a| - 1], b[..|b| - 1];
      assert forall i :: 0 <= i < |pa| ==> pa[i] == a[i] && pb[i] == b[i];
      SameTruthyYears(pa, pb);
    }
  }

  /**
    The `/api/search` handler: fetch `UpstreamUrl(query)`, overwrite the
    descriptions, attach the statistics and the elapsed time; any failure,
    including a throw from the statistics, becomes status 500 with a fixed
    message.
   */
  function Handle(query: Option<string>, fetch: string -> Upstream, elapsedMs: int): (r: Response)
    requires OrdinaryUpstream(fetch(UpstreamUrl(query)))
    ensures r.Ok? <==> Serviceable(fetch(UpstreamUrl(query)))
    ensures r.Failed? ==> r == Failed(500, FailureMessage)
    ensures r.Ok? ==>
              var u := fetch(UpstreamUrl(query));
              && |r.books| == (if u.Listing? then |u.entries| else 0)
              && (forall i :: 0 <= i < |r.books| ==> r.books[i].description == Some(Placeholder))
              && (u.Listing? ==> forall i :: 0 <= i < |r.books| ==>
                    r.books[i] == u.entries[i].value.(description := Some(Placeholder)))
              && CalculateStatistics(AsEntries(r.books)) == Summary(r.statistics)
              && r.statistics.totalResults == |r.books|
              && r.serverResponseTime == FormatElapsed(elapsedMs)
  {
    match fetch(UpstreamUrl(query))
    case Unreachable => Failed(500, FailureMessage)
    case NotAList => Failed(500, FailureMessage)
    case NoData =>
      Ok([], CalculateStatistics([]).stats, FormatElapsed(elapsedMs))
    case Listing(entries) =>
      match WithPlaceholder(entries)
      case None => Failed(500, FailureMessage)
      case Some(books) =>
        var es := AsEntries(books);
        assert OrdinaryAuthorKeys(es) by {
          forall i | 0 <= i < |es| ensures TruthyAuthor(es[i]) == TruthyAuthor(entries[i]) { }
        }
        SameTruthyYears(es, entries);
        match CalculateStatistics(es)
        case Summary(stats) => Ok(books, stats, FormatElapsed(elapsedMs))
        case RangeErrorThrown => Failed(500, FailureMessage)
  }

  /** A listing whose only year lies past the `Date` range is answered with status 500. */
  lemma OutOfRangeYearFails()
    ensures Handle(None, _ => Listing([ByYear(300000)]), 0) == Failed(500, FailureMessage)
  {
    OutOfRangeYearExample();
    assert OrdinaryAuthorKeys([ByYear(300000)]);
  }
}

=== FILE: statistics.dfy ===
/**
  The statistics the search backend attaches to every result list
  (`calculateStatistics` in book-search-backend/server.js): the record
  count, a per-author tally, the most common author and the earliest and
  latest publication years.

  The computation is one left-to-right pass over the records, modelled as a
  left fold (`Accumulate`), followed by a `reduce` over the tally's keys in
  insertion order (`ReduceMax`). The `Date` built from a year is modelled
  by the calendar year it lands in, or as an Invalid Date (`YearDate`);
  the `YYYY-MM-DD` formatting itself is not part of this model, only
  whether `toISOString` throws.
 */
module Statistics {
  import opened Wrappers
  import opened Records
  import opened Decimal

  // ---------------------------------------------------------------------
  // Result and tally

  /** The summary returned next to the books. */
  datatype Stats = Stats(
    totalResults: nat,
    mostCommonAuthor: Option<string>,
    earliestYear: Option<int>,
    latestYear: Option<int>)

  /** One own property `author: count` of the `authorsCount` object. */
  datatype AuthorCount = AuthorCount(author: string, count: nat)

  /** `authorsCount`, with its keys in insertion (enumeration) order. */
  type Tally = seq<AuthorCount>

  /** What `calculateStatistics` does: return a summary, or throw from `toISOString`. */
  datatype Outcome = Summary(stats: Stats) | RangeErrorThrown

  /** A `Date` built from a year: its calendar year, or an Invalid Date (time value NaN). */
  datatype DateValue = Valid(year: int) | InvalidDate

  /** The state carried through the `forEach`. */
  datatype Acc = Acc(tally: Tally, earliest: Option<DateValue>, latest: Option<DateValue>)

  /** The last calendar year whose January 1st lies inside the `Date` range. */
  const MaxDateYear: int := 275760

  /**
    `new Date("01-01-" + year)` for a truthy year, as V8's fallback parser
    reads it: one- and two-digit years name 2001-2049 and 1950-1999, years
    from 100 on name themselves while the date stays inside the `Date`
    range, and anything else gives an Invalid Date.
   */
  function YearDate(y: int): (d: DateValue)
    ensures d.Valid? <==> 1 <= y <= MaxDateYear
    ensures d.Valid? ==> d.year % 100 == y % 100
    ensures d.Valid? && y < 100 ==> 1950 <= d.year < 2050
    ensures d.Valid? && y >= 100 ==> d.year == y
  {
    if 1 <= y < 50 then Valid(2000 + y)
    else if 50 <= y < 100 then Valid(1900 + y)
    else if 100 <= y <= MaxDateYear then Valid(y)
    else InvalidDate
  }

  /** `d < e` on dates: false whenever either time value is NaN. */
  predicate Before(d: DateValue, e: DateValue) {
    d.Valid? && e.Valid? && d.year < e.year
  }

  /** Keys are distinct, non-empty, and every count is at least one. */
  ghost predicate WellFormed(t: Tally) {
    && (forall i, j :: 0 <= i < j < |t| ==> t[i].author != t[j].author)
    && (forall i :: 0 <= i < |t| ==> t[i].count >= 1 && t[i].author != "")
  }

  // ---------------------------------------------------------------------
  // Keys a plain JavaScript object treats specially

  /** Names `Object.prototype` already answers for an empty object literal. */
  const PrototypeNames: set<string> := {
    "constructor", "__proto__", "hasOwnProperty", "isPrototypeOf",
    "propertyIsEnumerable", "toString", "toLocaleString", "valueOf",
    "__defineGetter__", "__defineSetter__", "__lookupGetter__", "__lookupSetter__"
  }

  /** A canonical array index (0 .. 2^32 - 2): enumerated before all other keys. */
  predicate IsArrayIndexKey(s: string) {
    && |s| > 0
    && AllDigits(s)
    && (s == "0" || s[0] != '0')
    && DigitsValue(s) < 0xFFFF_FFFF
  }

  /**
    An author name the tally stores as an ordinary own property, enumerated
    in insertion order, and that cannot be confused with the `reduce` seed
    `null` (looked up as the key "null").
   */
  predicate IsOrdinaryKey(s: string) {
    s != "null" && s !in PrototypeNames && !IsArrayIndexKey(s)
  }

  /** Every truthy author of `books` is an ordinary key. */
  predicate OrdinaryAuthorKeys(books: seq<Entry>) {
    forall i :: 0 <= i < |books| && TruthyAuthor(books[i]).Some? ==>
      IsOrdinaryKey(TruthyAuthor(books[i]).value)
  }

  // ---------------------------------------------------------------------
  // Reference definitions over the records

  /** How many records have author `a` (as a truthy string). */
  function Occurrences(books: seq<Entry>, a: string): nat {
    if |books| == 0 then 0
    else Occurrences(books[..|books| - 1], a)
         + (if TruthyAuthor(books[|books| - 1]) == Some(a) then 1 else 0)
  }

  lemma {:induction false} NoOccurrence(books: seq<Entry>, a: string)
    requires Occurrences(books, a) == 0
    ensures forall k :: 0 <= k < |books| ==> TruthyAuthor(books[k]) != Some(a)
  {
    if |books| > 0 {
      var p := books[..|books| - 1];
      NoOccurrence(p, a);
      forall k | 0 <= k < |books|
        ensures TruthyAuthor(books[k]) != Some(a)
      {
        if k < |p| {
          assert books[k] == p[k];
        }
      }
    }
  }

  /** The position of the first record with author `a`. */
  function FirstIndex(books: seq<Entry>, a: string): (r: nat)
    requires Occurrences(books, a) > 0
    ensures r < |books| && TruthyAuthor(books[r]) == Some(a)
    ensures forall k :: 0 <= k < r ==> TruthyAuthor(books[k]) != Some(a)
  {
    var p := books[..|books| - 1];
    if Occurrences(p, a) > 0 then
      var r := FirstIndex(p, a);
      assert books[r] == p[r];
      assert forall k :: 0 <= k < r ==> books[k] == p[k];
      r
    else
      NoOccurrence(p, a);
      assert forall k :: 0 <= k < |p| ==> books[k] == p[k];
      |books| - 1
  }

  /** The truthy years of `books`, in record order. */
  function TruthyYears(books: seq<Entry>): seq<int> {
    if |books| == 0 then []
    else
      var rest := TruthyYears(books[..|books| - 1]);
      match TruthyYear(books[|books| - 1])
      case Some(y) => rest + [y]
      case None => rest
  }

  /** The calendar years of the truthy years that give a valid date, in record order. */
  function CalendarYears(books: seq<Entry>): (r: seq<int>)
    ensures |r| <= |TruthyYears(books)|
  {
    if |books| == 0 then []
    else
      var rest := CalendarYears(books[..|books| - 1]);
      match TruthyYear(books[|books| - 1])
      case Some(y) => (match YearDate(y) case Valid(c) => rest + [c] case InvalidDate => rest)
      case None => rest
  }

  /** The first truthy year gives an Invalid Date. */
  predicate FirstDateInvalid(books: seq<Entry>) {
    |TruthyYears(books)| > 0 && YearDate(TruthyYears(books)[0]).InvalidDate?
  }

  /** No record has a truthy author. */
  predicate NoAuthors(books: seq<Entry>) {
    forall i :: 0 <= i < |books| ==> TruthyAuthor(books[i]).None?
  }

  // ---------------------------------------------------------------------
  // The tally operations

  /** Position of key `a` in the tally. */
  function IndexOf(t: Tally, a: string): (r: Option<nat>)
    ensures r.Some? ==> r.value < |t| && t[r.value].author == a
    ensures r.None? ==> forall j :: 0 <= j < |t| ==> t[j].author != a
  {
    if |t| == 0 then None
    else if t[0].author == a then Some(0)
    else
      match IndexOf(t[1..], a)
      case None => None
      case Some(i) => Some(i + 1)
  }

  /** `authorsCount[a] || 0`. */
  function CountOf(t: Tally, a: string): nat {
    match IndexOf(t, a)
    case None => 0
    case Some(i) => t[i].count
  }

  /** `authorsCount[max] || 0` for the `reduce` accumulator; the seed `null` reads 0. */
  function Lookup(t: Tally, max: Option<string>): nat {
    match max
    case None => 0
    case Some(a) => CountOf(t, a)
  }

  /** `authorsCount[author] = (authorsCount[author] || 0) + 1`. */
  function Bump(t: Tally, a: string): (r: Tally)
    requires a != ""
    requires WellFormed(t)
    ensures WellFormed(r)
    ensures forall b :: CountOf(r, b) == CountOf(t, b) + (if b == a then 1 else 0)
    ensures forall i :: 0 <= i < |t| ==> i < |r| && r[i].author == t[i].author
    ensures |r| == |t| || (|r| == |t| + 1 && r[|t|].author == a && CountOf(t, a) == 0)
  {
    match IndexOf(t, a)
    case Some(i) =>
      var r := t[i := AuthorCount(a, t[i].count + 1)];
      forall b ensures CountOf(r, b) == CountOf(t, b) + (if b == a then 1 else 0) {
        IndexOfDistinct(t, i);
        IndexOfDistinct(r, i);
        var j := IndexOf(t, b);
        if j.Some? && j.value != i {
          IndexOfDistinct(t, j.value);
          IndexOfDistinct(r, j.value);
        }
      }
      r
    case None =>
      var r := t + [AuthorCount(a, 1)];
      forall b ensures CountOf(r, b) == CountOf(t, b) + (if b == a then 1 else 0) {
        IndexOfDistinct(r, |t|);
        var j := IndexOf(t, b);
        if j.Some? {
          IndexOfDistinct(t, j.value);
          IndexOfDistinct(r, j.value);
        }
      }
      r
  }

  /** In a tally with distinct keys, the key at position `i` is found at `i`. */
  lemma {:induction false} IndexOfDistinct(t: Tally, i: nat)
    requires forall p, q :: 0 <= p < q < |t| ==> t[p].author != t[q].author
    requires i < |t|
    ensures IndexOf(t, t[i].author) == Some(i)
  {
    if i > 0 {
      assert t[0].author != t[i].author;
      assert forall p, q :: 0 <= p < q < |t[1..]| ==> t[1..][p].author != t[1..][q].author by {
        forall p, q | 0 <= p < q < |t[1..]|
          ensures t[1..][p].author != t[1..][q].author
        {
          assert t[1..][p] == t[p + 1] && t[1..][q] == t[q + 1];
        }
      }
      IndexOfDistinct(t[1..], i - 1);
    }
  }

  // ---------------------------------------------------------------------
  // The pass over the records

  /** One `forEach` step: tally a truthy author, widen the year range by a truthy year. */
  function Visit(acc: Acc, e: Entry): (r: Acc)
    requires WellFormed(acc.tally)
    ensures TruthyAuthor(e).None? ==> r.tally == acc.tally
    ensures TruthyAuthor(e).Some? ==> r.tally == Bump(acc.tally, TruthyAuthor(e).value)
    ensures TruthyYear(e).None? ==> r.earliest == acc.earliest && r.latest == acc.latest
    ensures TruthyYear(e).Some? ==> r.earliest.Some? && r.latest.Some?
    ensures acc.earliest.Some? && acc.earliest.value.Valid? ==>
              r.earliest.Some? && r.earliest.value.Valid? && r.earliest.value.year <= acc.earliest.value.year
    ensures acc.latest.Some? && acc.latest.value.Valid? ==>
              r.latest.Some? && r.latest.value.Valid? && r.latest.value.year >= acc.latest.value.year
    ensures acc.earliest.Some? && r.earliest.Some? && r.earliest.value.InvalidDate? ==> r.earliest == acc.earliest
    ensures acc.latest.Some? && r.latest.Some? && r.latest.value.InvalidDate? ==> r.latest == acc.latest
  {
    var tally := match TruthyAuthor(e)
      case Some(a) => Bump(acc.tally, a)
      case None => acc.tally;
    match TruthyYear(e)
    case None => acc.(tally := tally)
    case Some(y) =>
      var date := YearDate(y);
      Acc(tally,
          if acc.earliest.None? || Before(date, acc.earliest.value) then Some(date) else acc.earliest,
          if acc.latest.None? || Before(acc.latest.value, date) then Some(date) else acc.latest)
  }

  /** The state after visiting every record of `books` in order. */
  function Accumulate(books: seq<Entry>): (acc: Acc)
    ensures WellFormed(acc.tally)
  {
    if |books| == 0 then Acc([], None, None)
    else Visit(Accumulate(books[..|books| - 1]), books[|books| - 1])
  }

  /**
    `Object.keys(authorsCount).reduce((max, author) =>
       authorsCount[author] > (authorsCount[max] || 0) ? author : max, null)`,
    from key `i` on.
   */
  function ReduceMax(t: Tally, i: nat, max: Option<string>): (r: Option<string>)
    requires i <= |t|
    ensures r == max || exists j :: i <= j < |t| && r == Some(t[j].author)
    decreases |t| - i
  {
    if i == |t| then max
    else ReduceMax(t, i + 1, if t[i].count > Lookup(t, max) then Some(t[i].author) else max)
  }

  /** `t[p]` holds the largest count and no earlier key of `t[..n]` reaches it. */
  ghost predicate FirstArgMax(t: Tally, n: nat, p: nat)
    requires n <= |t|
  {
    && p < n
    && (forall j :: 0 <= j < n ==> t[j].count <= t[p].count)
    && (forall j :: 0 <= j < p ==> t[j].count < t[p].count)
  }

  lemma {:induction false} ReduceMaxStep(t: Tally, i: nat, max: Option<string>)
    requires WellFormed(t)
    requires i <= |t|
    requires i == 0 ==> max == None
    requires i > 0 ==> max.Some? && IndexOf(t, max.value).Some?
                       && FirstArgMax(t, i, IndexOf(t, max.value).value)
    ensures var r := ReduceMax(t, i, max);
            && (r.None? <==> |t| == 0)
            && (r.Some? ==> IndexOf(t, r.value).Some? && FirstArgMax(t, |t|, IndexOf(t, r.value).value))
    decreases |t| - i
  {
    if i < |t| {
      var next := if t[i].count > Lookup(t, max) then Some(t[i].author) else max;
      IndexOfDistinct(t, i);
      if i > 0 {
        var p := IndexOf(t, max.value).value;
        assert Lookup(t, max) == t[p].count;
      }
      ReduceMaxStep(t, i + 1, next);
    }
  }

  /**
    The reduce yields `null` exactly for an empty tally, and otherwise the
    first key, in insertion order, whose count is the largest.
   */
  lemma {:induction false} MostCommonIsFirstArgMax(t: Tally)
    requires WellFormed(t)
    ensures ReduceMax(t, 0, None).None? <==> |t| == 0
    ensures ReduceMax(t, 0, None).Some? ==>
              var p := IndexOf(t, ReduceMax(t, 0, None).value);
              p.Some? && FirstArgMax(t, |t|, p.value)
  {
    ReduceMaxStep(t, 0, None);
  }

  // ---------------------------------------------------------------------
  // What the pass computes

  /** The tally counts exactly the records whose author is each name. */
  lemma {:induction false} TallyCountsOccurrences(books: seq<Entry>)
    ensures forall a :: CountOf(Accumulate(books).tally, a) == Occurrences(books, a)
  {
    if |books| > 0 {
      TallyCountsOccurrences(books[..|books| - 1]);
    }
  }

  /** Entries of the tally that were already present keep their place. */
  lemma {:induction false} FirstIndexOfPrefix(books: seq<Entry>, a: string)
    requires |books| > 0
    requires Occurrences(books[..|books| - 1], a) > 0
    ensures FirstIndex(books, a) == FirstIndex(books[..|books| - 1], a)
  {
  }

  /** Every key of the tally is an author some record has. */
  lemma {:induction false} TallyKeysOccur(books: seq<Entry>)
    ensures forall i :: 0 <= i < |Accumulate(books).tally| ==>
              Occurrences(books, Accumulate(books).tally[i].author) > 0
  {
    var t := Accumulate(books).tally;
    TallyCountsOccurrences(books);
    forall i | 0 <= i < |t| ensures Occurrences(books, t[i].author) > 0 {
      IndexOfDistinct(t, i);
    }
  }

  /** The tally lists authors in the order of their first occurrence. */
  lemma {:induction false} TallyFollowsFirstOccurrence(books: seq<Entry>)
    ensures forall i :: 0 <= i < |Accumulate(books).tally| ==>
              Occurrences(books, Accumulate(books).tally[i].author) > 0
    ensures forall i, j :: 0 <= i < j < |Accumulate(books).tally| ==>
              FirstIndex(books, Accumulate(books).tally[i].author)
                < FirstIndex(books, Accumulate(books).tally[j].author)
  {
    TallyKeysOccur(books);
    if |books| > 0 {
      var t := Accumulate(books).tally;
      var p := books[..|books| - 1];
      var t0 := Accumulate(p).tally;
      TallyFollowsFirstOccurrence(p);
      TallyCountsOccurrences(p);
      forall i, j | 0 <= i < j < |t|
        ensures FirstIndex(books, t[i].author) < FirstIndex(books, t[j].author)
      {
        FirstIndexOfPrefix(books, t0[i].author);
        if j < |t0| {
          FirstIndexOfPrefix(books, t0[j].author);
        } else {
          // t[j] is the author of the last record, seen there for the first time
          var a := TruthyAuthor(books[|books| - 1]).value;
          assert t[j].author == a && Occurrences(p, a) == 0;
        }
      }
    }
  }

  /** How one record extends the truthy years and the calendar years. */
  lemma {:induction false} YearsOfLast(books: seq<Entry>)
    requires |books| > 0
    ensures var p, x := books[..|books| - 1], books[|books| - 1];
            match TruthyYear(x)
            case None => TruthyYears(books) == TruthyYears(p) && CalendarYears(books) == CalendarYears(p)
            case Some(y) =>
              && TruthyYears(books) == TruthyYears(p) + [y]
              && (|TruthyYears(p)| > 0 ==> TruthyYears(books)[0] == TruthyYears(p)[0])
              && CalendarYears(books)
                   == CalendarYears(p) + (if YearDate(y).Valid? then [YearDate(y).year] else [])
  {
  }

  /**
    The earliest date: a first truthy year that gives an Invalid Date is
    kept, since every comparison with it is false; otherwise it is the
    smallest valid calendar year, and later invalid dates are skipped.
   */
  lemma {:induction false} EarliestRange(books: seq<Entry>)
    ensures Accumulate(books).earliest.None? <==> |TruthyYears(books)| == 0
    ensures FirstDateInvalid(books) ==> Accumulate(books).earliest == Some(InvalidDate)
    ensures |TruthyYears(books)| > 0 && !FirstDateInvalid(books) ==>
              var e := Accumulate(books).earliest.value;
              e.Valid? && e.year in CalendarYears(books)
              && forall c :: c in CalendarYears(books) ==> e.year <= c
  {
    if |books| > 0 {
      var p := books[..|books| - 1];
      EarliestRange(p);
      YearsOfLast(books);
    }
  }

  /** The latest date, symmetrically: kept if invalid first, else the largest valid calendar year. */
  lemma {:induction false} LatestRange(books: seq<Entry>)
    ensures Accumulate(books).latest.None? <==> |TruthyYears(books)| == 0
    ensures FirstDateInvalid(books) ==> Accumulate(books).latest == Some(InvalidDate)
    ensures |TruthyYears(books)| > 0 && !FirstDateInvalid(books) ==>
              var l := Accumulate(books).latest.value;
              l.Valid? && l.year in CalendarYears(books)
              && forall c :: c in CalendarYears(books) ==> c <= l.year
  {
    if |books| > 0 {
      var p := books[..|books| - 1];
      LatestRange(p);
      YearsOfLast(books);
    }
  }

  // ---------------------------------------------------------------------
  // calculateStatistics

  /** The calendar year of a date that has one. */
  function YearOf(d: Option<DateValue>): Option<int> {
    if d.Some? && d.value.Valid? then Some(d.value.year) else None
  }

  /**
    `calculateStatistics(books)`: it throws a RangeError exactly when the
    first truthy year gives an Invalid Date. Otherwise it returns the count
    of all records (null ones included), the most common truthy author with
    ties going to the author seen first, and the smallest and largest
    calendar year among the valid dates.
   */
  function CalculateStatistics(books: seq<Entry>): (r: Outcome)
    requires OrdinaryAuthorKeys(books)
    ensures r.RangeErrorThrown? <==> FirstDateInvalid(books)
    ensures r.Summary? ==> r.stats.totalResults == |books|
    ensures r.Summary? ==> (r.stats.mostCommonAuthor.None? <==> NoAuthors(books))
    ensures r.Summary? && r.stats.mostCommonAuthor.Some? ==>
              var a := r.stats.mostCommonAuthor.value;
              && Occurrences(books, a) > 0
              && (forall b :: Occurrences(books, b) <= Occurrences(books, a))
              && (forall b :: b != a && 0 < Occurrences(books, b) == Occurrences(books, a) ==>
                    FirstIndex(books, a) < FirstIndex(books, b))
    ensures r.Summary? ==> (r.stats.earliestYear.None? <==> |TruthyYears(books)| == 0)
    ensures r.Summary? ==> (r.stats.latestYear.None? <==> |TruthyYears(books)| == 0)
    ensures r.Summary? && r.stats.earliestYear.Some? ==>
              r.stats.earliestYear.value in CalendarYears(books)
              && forall c :: c in CalendarYears(books) ==> r.stats.earliestYear.value <= c
    ensures r.Summary? && r.stats.latestYear.Some? ==>
              r.stats.latestYear.value in CalendarYears(books)
              && forall c :: c in CalendarYears(books) ==> c <= r.stats.latestYear.value
  {
    var acc := Accumulate(books);
    var most := ReduceMax(acc.tally, 0, None);
    EarliestRange(books);
    LatestRange(books);
    MostCommonFacts(books);
    if acc.earliest == Some(InvalidDate) || acc.latest == Some(InvalidDate) then RangeErrorThrown
    else Summary(Stats(|books|, most, YearOf(acc.earliest), YearOf(acc.latest)))
  }

  /** The `reduce` over the pass's tally, restated in terms of the records. */
  lemma {:induction false} MostCommonFacts(books: seq<Entry>)
    ensures var most := ReduceMax(Accumulate(books).tally, 0, None);
            && (most.None? <==> NoAuthors(books))
            && (most.Some? ==>
                  var a := most.value;
                  && Occurrences(books, a) > 0
                  && (forall b :: Occurrences(books, b) <= Occurrences(books, a))
                  && (forall b :: b != a && 0 < Occurrences(books, b) == Occurrences(books, a) ==>
                        FirstIndex(books, a) < FirstIndex(books, b)))
  {
    var t := Accumulate(books).tally;
    var most := ReduceMax(t, 0, None);
    MostCommonIsFirstArgMax(t);
    TallyCountsOccurrences(books);
    TallyFollowsFirstOccurrence(books);
    if !NoAuthors(books) {
      var i :| 0 <= i < |books| && TruthyAuthor(books[i]).Some?;
      OccurrenceAt(books, i);
      assert CountOf(t, TruthyAuthor(books[i]).value) > 0;
    }
    if most.Some? {
      var a := most.value;
      var p := IndexOf(t, a).value;
      assert !NoAuthors(books) by {
        var k := FirstIndex(books, a);
        assert TruthyAuthor(books[k]).Some?;
      }
      forall b ensures Occurrences(books, b) <= Occurrences(books, a) {
        var q := IndexOf(t, b);
        if q.Some? {
          assert t[q.value].count <= t[p].count;
        }
      }
      forall b | b != a && 0 < Occurrences(books, b) == Occurrences(books, a)
        ensures FirstIndex(books, a) < FirstIndex(books, b)
      {
        var q := IndexOf(t, b).value;
        assert t[q].count == t[p].count;
        assert p != q;
        assert !(q < p);
      }
    }
  }

  /** A record with a truthy author makes that author occur. */
  lemma {:induction false} OccurrenceAt(books: seq<Entry>, i: nat)
    requires i < |books| && TruthyAuthor(books[i]).Some?
    ensures Occurrences(books, TruthyAuthor(books[i]).value) > 0
  {
    var p := books[..|books| - 1];
    if i < |p| {
      assert books[i] == p[i];
      OccurrenceAt(p, i);
    }
  }

  /** A record with only an author. */
  function ByAuthor(a: string): Entry {
    Some(Book(None, Some(a), None, None))
  }

  /**
    Two authors that share the largest count, and no other author: the one
    whose first record comes first is the most common.
   */
  lemma {:induction false} TieBetweenTwo(books: seq<Entry>, a: string, b: string)
    requires OrdinaryAuthorKeys(books)
    requires 0 < Occurrences(books, a) == Occurrences(books, b)
    requires FirstIndex(books, a) < FirstIndex(books, b)
    requires forall c :: Occurrences(books, c) > 0 ==> c == a || c == b
    ensures CalculateStatistics(books).Summary? ==>
              CalculateStatistics(books).stats.mostCommonAuthor == Some(a)
  {
    var r := CalculateStatistics(books);
    if r.Summary? {
      var k := FirstIndex(books, a);
      assert TruthyAuthor(books[k]).Some?;
      var m := r.stats.mostCommonAuthor.value;
      assert m == a || m == b;
    }
  }

  /** Authors A, A, B, B tie at two records each; A, seen first, is the most common. */
  lemma {:induction false} TieGoesToFirstSeen()
    ensures var r := CalculateStatistics([ByAuthor("A"), ByAuthor("A"), ByAuthor("B"), ByAuthor("B")]);
            r.Summary? && r.stats.mostCommonAuthor == Some("A")
  {
    var books := [ByAuthor("A"), ByAuthor("A"), ByAuthor("B"), ByAuthor("B")];
    assert OrdinaryAuthorKeys(books) by {
      assert !IsArrayIndexKey("A") && !IsArrayIndexKey("B");
    }
    var p1, p2, p3 := books[..1], books[..2], books[..3];
    assert "A" != "B" by { assert "A"[0] != "B"[0]; }
    assert TruthyAuthor(ByAuthor("A")) == Some("A") && TruthyAuthor(ByAuthor("B")) == Some("B");
    assert p1[..0] == [] && p2[..1] == p1 && p3[..2] == p2 && books[..3] == p3;
    assert TruthyAuthor(p1[0]) == Some("A") && TruthyAuthor(p1[0]) != Some("B");
    assert Occurrences(p1[..0], "A") == 0 && Occurrences(p1[..0], "B") == 0;
    assert p1[0] == ByAuthor("A") && p2[1] == ByAuthor("A") && p3[2] == ByAuthor("B") && books[3] == ByAuthor("B");
    assert Occurrences(p1, "A") == 1 && Occurrences(p1, "B") == 0;
    assert Occurrences(p2, "A") == 2 && Occurrences(p2, "B") == 0;
    assert Occurrences(p3, "A") == 2 && Occurrences(p3, "B") == 1;
    assert Occurrences(books, "A") == 2 && Occurrences(books, "B") == 2;
    assert TruthyYear(ByAuthor("A")) == None && TruthyYear(ByAuthor("B")) == None;
    assert TruthyYears(p1) == [];
    assert TruthyYears(p2) == [];
    assert TruthyYears(p3) == [];
    assert TruthyYears(books) == [];
    assert FirstIndex(books, "A") < FirstIndex(books, "B") by {
      var i, j := FirstIndex(books, "A"), FirstIndex(books, "B");
      assert TruthyAuthor(books[0]) != Some("B") && TruthyAuthor(books[1]) != Some("B");
      assert TruthyAuthor(books[2]) != Some("A") && TruthyAuthor(books[3]) != Some("A");
    }
    forall c | Occurrences(books, c) > 0 ensures c == "A" || c == "B" {
      var k := FirstIndex(books, c);
      assert TruthyAuthor(books[k]) == Some(c);
    }
    TieBetweenTwo(books, "A", "B");
  }

  /** A record with only a year. */
  function ByYear(y: int): Entry {
    Some(Book(None, None, Some(y), None))
  }

  /** Years 2020, 1999, 2021 give 1999 as the earliest and 2021 as the latest. */
  lemma {:induction false} YearsExample()
    ensures var r := CalculateStatistics([ByYear(2020), ByYear(1999), ByYear(2021)]);
            r.Summary? && r.stats.earliestYear == Some(1999) && r.stats.latestYear == Some(2021)
  {
    var books := [ByYear(2020), ByYear(1999), ByYear(2021)];
    var p1, p2 := books[..1], books[..2];
    assert p1[..0] == [] && p2[..1] == p1 && books[..2] == p2;
    assert TruthyYears(p1) == [2020] && CalendarYears(p1) == [2020];
    assert TruthyYears(p2) == [2020, 1999] && CalendarYears(p2) == [2020, 1999];
    assert TruthyYears(books) == [2020, 1999, 2021] && CalendarYears(books) == [2020, 1999, 2021];
    assert OrdinaryAuthorKeys(books);
  }

  /** A two-digit year names a year of this century: 49 and 2020 give 2020 and 2049. */
  lemma {:induction false} TwoDigitYearExample()
    ensures var r := CalculateStatistics([ByYear(49), ByYear(2020)]);
            r.Summary? && r.stats.earliestYear == Some(2020) && r.stats.latestYear == Some(2049)
  {
    var books := [ByYear(49), ByYear(2020)];
    var p1 := books[..1];
    assert p1[..0] == [] && books[..1] == p1;
    assert TruthyYears(p1) == [49] && CalendarYears(p1) == [2049];
    YearsOfLast(p1);
    YearsOfLast(books);
    assert TruthyYears(books) == [49, 2020] && CalendarYears(books) == [2049, 2020];
    assert OrdinaryAuthorKeys(books);
  }

  /**
    A year past the `Date` range seen first makes the summary throw; seen
    after a valid year it is skipped.
   */
  lemma {:induction false} OutOfRangeYearExample()
    ensures CalculateStatistics([ByYear(300000)]).RangeErrorThrown?
    ensures var r := CalculateStatistics([ByYear(2020), ByYear(300000)]);
            r.Summary? && r.stats.earliestYear == Some(2020) && r.stats.latestYear == Some(2020)
  {
    var one := [ByYear(300000)];
    assert one[..0] == [];
    assert TruthyYears(one) == [300000];
    assert OrdinaryAuthorKeys(one);
    var books := [ByYear(2020), ByYear(300000)];
    var p1 := books[..1];
    assert p1[..0] == [] && books[..1] == p1 && p1[0] == ByYear(2020);
    assert YearDate(2020) == Valid(2020) && YearDate(300000) == InvalidDate;
    assert TruthyYears(p1) == [2020] && CalendarYears(p1) == [2020];
    assert TruthyYears(books) == [2020, 300000] && CalendarYears(books) == [2020];
    assert OrdinaryAuthorKeys(books);
  }
}

=== FILE: wrappers.dfy ===
/** Optional values, used for JavaScript's null and undefined. */
module Wrappers {

  /** `None` stands for a JavaScript null or undefined. */
  datatype Option<+T> = None | Some(value: T)
}
